=== FILE: README.md ===
# Gesture Dino — a Dafny model of the game logic

Gesture Dino is a small side-scrolling reflex game. A webcam watches the
player's hand: four raised fingers make the dinosaur jump, none or one makes
it duck, two or three let it run, and with no frame or no hand it runs.
Obstacles enter from the right edge and move left; the game ends when one
overlaps the dinosaur or when the window is closed.

This project models the game logic of `gesture_dino.py` as pure functions
over immutable values, and proves what that logic guarantees:

- `geometry.dfy`, module `Geometry`: rectangles and the collision test.
  The graphics library's overlap test is not part of the model. It is
  specified as strict overlap of two positive-size rectangles, so rectangles
  that only share an edge do not collide.
- `gesture.dfy`, module `Gesture`: the three commands and the finger-count
  rule. The detector's result is an input: no frame, no hand, or the 21
  landmark y-coordinates of the first hand.
- `physics.dfy`, module `Physics`: the dinosaur's integer physics tick and
  its hitbox. Also the exact jump arc and the set of states reachable from
  the start.
- `obstacles.dfy`, module `Obstacles`: obstacle creation, motion and the
  off-screen test. Also how an obstacle's rectangle meets the dinosaur's
  hitbox.
- `game.dfy`, module `GameLoop`: the loop state and one frame of the main
  loop (`Step`). A quit request is a boolean input, and the command is an
  input, as `Gesture.GetCommand` produces it. `Advance` plays a run of
  frames, and the method `Play` is the `while running` loop. The module also
  proves an invariant of every game: never more than two obstacles, at
  positions fixed by the spawn timer.

Three consequences of the code that are easy to miss:

- A quit only clears `running`. The dinosaur, spawning, obstacle motion and
  pruning still happen in the frame that sees the quit
  (`GameLoop.QuitOnlyStopsRunning`).
- Running on the ground, the velocity alternates between 0 and 1
  (`Physics.GroundRunAlternates`). The tick adds gravity before the next
  tick clamps the dinosaur back to the ground, so the velocity is not always 0.
- With the start at 900, speed 8 and threshold -50, a new obstacle is first
  off screen on its 119th update (`Obstacles.OffscreenAfter`).

## Model

| member | source | states |
|---|---|---|
| Gesture.CountRaised | gesture_dino.py:51-55 | the loop's count equals the number of raised fingers (tip above the joint two landmarks down) and is at most 4 |
| Gesture.Classify | gesture_dino.py:57-61 | jump iff at least 4 fingers, duck iff at most 1, run iff 2 or 3 |
| Gesture.GetCommand | gesture_dino.py:37-61 | a failed camera read or no detected hand gives run; otherwise the finger-count classification |
| Gesture.JumpIffAllRaised | gesture_dino.py:51-58 | a detected hand gives jump exactly when all four fingers are raised |
| Gesture.DuckIffAtMostOneRaised | gesture_dino.py:51-61 | a detected hand gives duck iff at most one finger is raised, run iff two or three |
| Geometry.CollideSymmetric | gesture_dino.py:139 | the assumed collision test does not depend on the order of the rectangles |
| Geometry.TouchingDoesNotCollide | gesture_dino.py:139 | rectangles that share only an edge do not collide |
| Geometry.CommonCellCollides | gesture_dino.py:139 | positive-size rectangles with a common cell collide |
| Physics.Start | gesture_dino.py:68-71 | the dinosaur starts on the ground, at rest, not ducking, in a reachable state; running from there lifts the velocity to 1 and a jump takes off at once |
| Physics.Update | gesture_dino.py:73-84 | after a tick the feet are never below the ground; the pose is ducking iff the command is duck; a move that would pass the ground lands at ground level with velocity 0 |
| Physics.Hitbox | gesture_dino.py:86-88 | hitbox at x 80, width 40, height 30 when ducking and 50 otherwise, bottom edge at the feet |
| Physics.NoDoubleJump | gesture_dino.py:74-75 | off the ground, jump moves the dinosaur exactly as run does |
| Physics.DuckOnlyChangesPose | gesture_dino.py:77-88 | duck and run give the same position and velocity; the hitbox height follows the command of the tick |
| Physics.GroundRunAlternates | gesture_dino.py:79-84 | running on the ground, the velocity alternates 0, 1, 0 |
| Physics.ArcStep | gesture_dino.py:79-80 | the arc height of one frame differs from the previous one by that frame's velocity |
| Physics.ArcBounds | gesture_dino.py:12-13 | the arc 230 − 18k + k(k−1)/2 stays in [59, 230] for 1 ≤ k ≤ 37, is 59 exactly at frames 18 and 19, and is 230 exactly at frame 37 |
| Physics.JumpArc | gesture_dino.py:73-84 | k frames after a jump from the ground (k ≤ 37), whatever the later commands, y is the arc height and the velocity is −18 + k |
| Physics.JumpLands | gesture_dino.py:82-84 | frame 37 of a jump is at the ground with velocity 19; a non-jump command on frame 38 leaves the dinosaur at rest on the ground |
| Physics.ReachableBounds | gesture_dino.py:73-84 | every reachable state has 59 ≤ y ≤ 230 |
| Physics.ReachablePreserved | gesture_dino.py:73-84 | no command leads out of the reachable states (ground with velocity 0 or 1, or a point of the jump arc) |
| Physics.SimulateReachable | gesture_dino.py:68-84 | any command sequence from the initial dinosaur stays reachable, hence between 59 and 230 |
| Obstacles.Spawn | gesture_dino.py:92-95 | a new obstacle is at x 900, speed 8, rectangle (900, 190, 30, 40) |
| Obstacles.Move | gesture_dino.py:97-99 | an update lowers x by the speed and moves the rectangle's x with it, leaving its y, width and height unchanged |
| Obstacles.Offscreen | gesture_dino.py:101-102 | off screen means x < -50; a well-formed obstacle that is off screen lies wholly left of the window |
| Obstacles.MoveTimesPosition | gesture_dino.py:97-99 | n updates move a well-formed obstacle exactly 8n to the left |
| Obstacles.OffscreenAfter | gesture_dino.py:93-102 | after n updates a new obstacle is at 900 − 8n, and it is off screen iff n ≥ 119 |
| Obstacles.CollideWithDino | gesture_dino.py:139 | an obstacle collides with a dinosaur on or above the ground iff their columns overlap and the feet are below y 190 |
| Obstacles.HighEnoughClears | gesture_dino.py:139 | with feet at y 190 or above, no obstacle collides |
| Obstacles.DuckingOnGroundStillCollides | gesture_dino.py:87-88 | ducking on the ground still collides with an obstacle whose columns meet the hitbox |
| GameLoop.Init | gesture_dino.py:112-118 | the game starts running, with score 0, spawn timer 0, no obstacles and the dinosaur at rest on the ground |
| GameLoop.MoveAll | gesture_dino.py:137-138 | every obstacle is updated once, in place in the list |
| GameLoop.Prune | gesture_dino.py:142 | pruning keeps only on-screen obstacles and never grows the list |
| GameLoop.PruneMembers | gesture_dino.py:142 | pruning removes exactly the off-screen obstacles |
| GameLoop.PruneAppend | gesture_dino.py:142 | pruning distributes over concatenation, so survivors keep their order |
| GameLoop.PruneNothingOffscreen | gesture_dino.py:142 | pruning a list with nothing off screen changes nothing |
| GameLoop.Step | gesture_dino.py:121-142 | a frame raises the score by 1, ticks the dinosaur with the frame's command, keeps the spawn timer in [0, 90], and never restarts a stopped game |
| GameLoop.StepRunning | gesture_dino.py:126-140 | after a frame the game runs iff it ran before, no quit came, and no moved obstacle collides with the new hitbox |
| GameLoop.StepSurvivors | gesture_dino.py:133-142 | the obstacles after a frame are exactly the moved old and new ones that are still on screen |
| GameLoop.StepObstacles | gesture_dino.py:133-142 | the old survivors keep their order, and on a spawning frame the new obstacle comes last, already moved to 892 |
| GameLoop.QuitOnlyStopsRunning | gesture_dino.py:126-142 | a quit changes nothing in the frame except clearing the running flag |
| GameLoop.RunningOnlyAffectsRunning | gesture_dino.py:121-142 | everything a frame computes except the running flag is independent of the incoming running flag |
| GameLoop.EndedStaysEnded | gesture_dino.py:121-140 | a stopped game stays stopped |
| GameLoop.AdvanceScore | gesture_dino.py:123 | n frames raise the score by exactly n |
| GameLoop.AdvanceTimer | gesture_dino.py:124-135 | from a timer in range, the spawn timer after n frames is (timer + n) mod 91 |
| GameLoop.AdvanceDino | gesture_dino.py:130-131 | inside the game the dinosaur moves exactly as its commands alone would move it |
| GameLoop.SpawnEvery91st | gesture_dino.py:124-135 | from the start, frame n spawns an obstacle iff n is a multiple of 91 |
| GameLoop.DinoStaysInBounds | gesture_dino.py:68-84 | in every game the dinosaur's feet stay between y 59 and the ground |
| GameLoop.WaveMoves | gesture_dino.py:137-142 | on a frame without spawning, the obstacles that remain keep their spacing and are on screen; the older one is dropped on the frame its x falls below −50 |
| GameLoop.WaveSpawns | gesture_dino.py:133-142 | on a spawning frame, the obstacle two spawns old has left the screen and the new one joins at 892 |
| GameLoop.StepConsistent | gesture_dino.py:121-142 | a frame keeps the timer in range, the dinosaur reachable and the obstacles at most two, spaced 91 frames apart, all on screen |
| GameLoop.AdvanceConsistent | gesture_dino.py:112-142 | every game from the start is consistent, and in particular holds at most two obstacles |
| GameLoop.Play | gesture_dino.py:120-142 | the loop plays frames until the inputs run out or the game stops; the result is those frames played in order, every played frame started from a running game, so the loop stops at the first stopped game, and the score counts the frames |

## Left out

- Camera capture, mirroring, colour conversion and the hand-landmark detector (gesture_dino.py:26-49): device I/O and a foreign machine-learning model. The model keeps only the detector's outcome as an input.
- Drawing, fonts, the ASCII art, the window and display flipping (gesture_dino.py:15-22, 106-110, 144-156): output only, with no effect on the state.
- Frame pacing with the clock, event polling, and process exit (gesture_dino.py:122, 126, 158-161): timing and process control. Quit is a boolean input to each frame.
- The camera release in `finally` (gesture_dino.py:63-64, 159): resource handling.
- The graphics library's collision test: its code is not part of this model. `Geometry.Collide` is an assumed specification, strict overlap of positive-size rectangles. Every rectangle the game builds has positive size.
- Integer widths: Python integers do not overflow, and the model's integers are unbounded too. The score grows without bound in both.
- Landmark coordinates: the detector's floating-point coordinates are modelled as reals (`Gesture.Raised`). Only `<` is applied to them, which agrees on finite values; NaN coordinates are not modelled.

=== FILE: game.dfy ===
/**
 The main loop's state and one frame of it: score and spawn timer, quit
 handling, the character's tick, spawning, moving and colliding obstacles,
 and dropping the ones that left the playfield. Drawing and frame pacing are
 not part of the state and are left out.
 */
module GameLoop {
  import opened Gesture
  import opened Geometry
  import opened Physics
  import opened Obstacles

  /** A new obstacle appears once the incremented spawn timer exceeds this many frames. */
  const SpawnAfter: int := 90

  /** Everything the loop carries from one frame to the next. */
  datatype GameState = GameState(
    dino: Dino,
    obstacles: seq<Obstacle>,
    score: int,
    spawnTimer: int,
    running: bool)

  /** One frame's inputs: the gesture command and whether a quit event was polled. */
  datatype Input = Input(command: Command, quit: bool)

  /** The state before the first frame. */
  function Init(): (s: GameState)
    ensures s.running && s.score == 0 && s.spawnTimer == 0 && s.obstacles == []
    ensures s.dino == Start()
  {
    GameState(Start(), [], 0, 0, true)
  }

  /** Every obstacle updated once, in order. */
  function MoveAll(obs: seq<Obstacle>): (r: seq<Obstacle>)
    ensures |r| == |obs|
    ensures forall i :: 0 <= i < |obs| ==> r[i] == Move(obs[i])
  {
    if |obs| == 0 then []
    else [Move(obs[0])] + MoveAll(obs[1..])
  }

  /** Some obstacle's rectangle collides with the given box. */
  predicate AnyHits(obs: seq<Obstacle>, box: Rect)
  {
    exists i :: 0 <= i < |obs| && Collide(obs[i].rect, box)
  }

  /** The obstacles still on screen, in their original order. */
  function Prune(obs: seq<Obstacle>): (r: seq<Obstacle>)
    ensures forall i :: 0 <= i < |r| ==> !Offscreen(r[i])
    ensures |r| <= |obs|
  {
    if |obs| == 0 then []
    else if Offscreen(obs[0]) then Prune(obs[1..])
    else [obs[0]] + Prune(obs[1..])
  }

  /** Pruning removes exactly the obstacles that are off screen. */
  lemma {:induction false} PruneMembers(obs: seq<Obstacle>)
    ensures forall o :: o in Prune(obs) <==> o in obs && !Offscreen(o)
    decreases |obs|
  {
    if |obs| > 0 {
      PruneMembers(obs[1..]);
      assert obs == [obs[0]] + obs[1..];
    }
  }

  /** Pruning works element by element, so it keeps the survivors' relative order. */
  lemma {:induction false} PruneAppend(a: seq<Obstacle>, b: seq<Obstacle>)
    ensures Prune(a + b) == Prune(a) + Prune(b)
    decreases |a|
  {
    if |a| == 0 {
      assert a + b == b;
    } else {
      var rest := a[1..];
      assert (a + b)[1..] == rest + b;
      PruneAppend(rest, b);
      if !Offscreen(a[0]) {
        assert ([a[0]] + Prune(rest)) + Prune(b) == [a[0]] + (Prune(rest) + Prune(b));
      }
    }
  }

  /** Pruning leaves a list with nothing off screen unchanged. */
  lemma {:induction false} PruneNothingOffscreen(obs: seq<Obstacle>)
    requires forall i :: 0 <= i < |obs| ==> !Offscreen(obs[i])
    ensures Prune(obs) == obs
    decreases |obs|
  {
    if |obs| > 0 {
      PruneNothingOffscreen(obs[1..]);
    }
  }

  /** The spawn timer after a frame: incremented, and reset to 0 when that exceeds the interval. */
  function NextTimer(t: int): int
  {
    if t + 1 > SpawnAfter then 0 else t + 1
  }

  /** Whether this frame spawns: the timer, once incremented, exceeds the interval. */
  predicate Spawns(s: GameState)
  {
    s.spawnTimer + 1 > SpawnAfter
  }

  /** The obstacles the frame updates: the live ones, plus the new one on a spawning frame. */
  function Pending(s: GameState): seq<Obstacle>
  {
    s.obstacles + (if Spawns(s) then [Spawn()] else [])
  }

  /**
   One frame. A quit or a collision only clears the running flag: the rest of
   the frame still runs, so every obstacle is moved and pruning still happens.
   */
  function Step(s: GameState, input: Input): (r: GameState)
    ensures r.score == s.score + 1
    ensures r.dino == Update(s.dino, input.command)
    ensures 0 <= s.spawnTimer <= SpawnAfter ==> 0 <= r.spawnTimer <= SpawnAfter
    ensures !s.running || input.quit ==> !r.running
  {
    var dino := Update(s.dino, input.command);
    var moved := MoveAll(Pending(s));
    GameState(
      dino,
      Prune(moved),
      s.score + 1,
      NextTimer(s.spawnTimer),
      s.running && !input.quit && !AnyHits(moved, Hitbox(dino)))
  }

  /**
   After a frame the game still runs exactly when it ran before, no quit was
   requested, and no obstacle, once moved, collides with the character's new
   hitbox.
   */
  lemma StepRunning(s: GameState, input: Input)
    ensures Step(s, input).running <==>
      s.running && !input.quit &&
      !(exists o :: o in Pending(s) && Collide(Move(o).rect, Hitbox(Update(s.dino, input.command))))
  {
    var box := Hitbox(Update(s.dino, input.command));
    var moved := MoveAll(Pending(s));
    if AnyHits(moved, box) {
      var i :| 0 <= i < |moved| && Collide(moved[i].rect, box);
      assert Pending(s)[i] in Pending(s);
    }
  }

  /** The obstacles after a frame are exactly the moved pending ones that are still on screen. */
  lemma StepSurvivors(s: GameState, input: Input)
    ensures forall o :: o in Step(s, input).obstacles <==>
      !Offscreen(o) && exists p :: p in Pending(s) && o == Move(p)
  {
    var moved := MoveAll(Pending(s));
    PruneMembers(moved);
    forall o | o in moved ensures exists p :: p in Pending(s) && o == Move(p) {
      var i :| 0 <= i < |moved| && moved[i] == o;
      assert Pending(s)[i] in Pending(s);
    }
  }

  /** A quit request changes nothing in the frame but the running flag. */
  lemma QuitOnlyStopsRunning(s: GameState, c: Command)
    ensures Step(s, Input(c, true)) == Step(s, Input(c, false)).(running := false)
  {
  }

  /** Whether the game was still running changes nothing else in a frame. */
  lemma RunningOnlyAffectsRunning(s: GameState, input: Input, b: bool)
    ensures Step(s.(running := b), input).(running := true) == Step(s, input).(running := true)
  {
  }

  /** A game that has ended stays ended. */
  lemma EndedStaysEnded(s: GameState, input: Input)
    requires !s.running
    ensures !Step(s, input).running
  {
  }

  /**
   The surviving obstacles, in order: the old ones that are still on screen,
   then, on a spawning frame, the new one, already moved once.
   */
  lemma StepObstacles(s: GameState, input: Input)
    ensures !Spawns(s) ==> Step(s, input).obstacles == Prune(MoveAll(s.obstacles))
    ensures Spawns(s) ==> Step(s, input).obstacles == Prune(MoveAll(s.obstacles)) + [At(PlayfieldWidth - Speed)]
  {
    var extra := if Spawns(s) then [Spawn()] else [];
    MoveAllAppend(s.obstacles, extra);
    PruneAppend(MoveAll(s.obstacles), MoveAll(extra));
    if Spawns(s) {
      assert MoveAll(extra) == [At(PlayfieldWidth - Speed)];
    } else {
      assert s.obstacles + extra == s.obstacles;
    }
  }

  /** Moving works element by element. */
  lemma MoveAllAppend(a: seq<Obstacle>, b: seq<Obstacle>)
    ensures MoveAll(a + b) == MoveAll(a) + MoveAll(b)
  {
  }

  /** The state after the given frames, played one after the other. */
  function Advance(s: GameState, inputs: seq<Input>): GameState
    decreases |inputs|
  {
    if |inputs| == 0 then s
    else Step(Advance(s, inputs[..|inputs| - 1]), inputs[|inputs| - 1])
  }

  /** Playing one more frame of the same inputs is one more Step. */
  lemma AdvanceOneMore(s: GameState, inputs: seq<Input>, k: nat)
    requires k < |inputs|
    ensures Advance(s, inputs[..k + 1]) == Step(Advance(s, inputs[..k]), inputs[k])
  {
    assert inputs[..k + 1][..k] == inputs[..k];
  }

  /** The commands of a run of frames. */
  function Commands(inputs: seq<Input>): (cs: seq<Command>)
    ensures |cs| == |inputs|
    ensures forall i :: 0 <= i < |inputs| ==> cs[i] == inputs[i].command
  {
    seq(|inputs|, i requires 0 <= i < |inputs| => inputs[i].command)
  }

  /** Over n frames the score rises by exactly n. */
  lemma {:induction false} AdvanceScore(s: GameState, inputs: seq<Input>)
    ensures Advance(s, inputs).score == s.score + |inputs|
    decreases |inputs|
  {
    if |inputs| > 0 {
      var front := inputs[..|inputs| - 1];
      AdvanceScore(s, front);
      assert Advance(s, inputs) == Step(Advance(s, front), inputs[|inputs| - 1]);
    }
  }

  /** The spawn timer after n frames. */
  function TimerAfter(t: int, n: nat): int
  {
    if n == 0 then t else NextTimer(TimerAfter(t, n - 1))
  }

  /** Over a run of frames the spawn timer evolves on its own, frame by frame. */
  lemma {:induction false} AdvanceTimerSteps(s: GameState, inputs: seq<Input>)
    ensures Advance(s, inputs).spawnTimer == TimerAfter(s.spawnTimer, |inputs|)
    decreases |inputs|
  {
    if |inputs| > 0 {
      var front := inputs[..|inputs| - 1];
      AdvanceTimerSteps(s, front);
      assert Advance(s, inputs) == Step(Advance(s, front), inputs[|inputs| - 1]);
    }
  }

  /** From a timer in range, the spawn timer counts frames modulo 91. */
  lemma {:induction false} TimerAfterMod(t: int, n: nat)
    requires 0 <= t <= SpawnAfter
    ensures TimerAfter(t, n) == (t + n) % (SpawnAfter + 1)
    decreases n
  {
    if n > 0 {
      TimerAfterMod(t, n - 1);
      TimerStep(TimerAfter(t, n - 1), t + n - 1);
    }
  }

  /** From a timer in range, the spawn timer of a game counts frames modulo 91. */
  lemma AdvanceTimer(s: GameState, inputs: seq<Input>)
    requires 0 <= s.spawnTimer <= SpawnAfter
    ensures Advance(s, inputs).spawnTimer == (s.spawnTimer + |inputs|) % (SpawnAfter + 1)
  {
    AdvanceTimerSteps(s, inputs);
    TimerAfterMod(s.spawnTimer, |inputs|);
  }

  /** Counting modulo 91 one step further is what the spawn timer does. */
  lemma TimerStep(t: int, n: int)
    requires t == n % (SpawnAfter + 1)
    ensures NextTimer(t) == (n + 1) % (SpawnAfter + 1)
  {
    var q := n / (SpawnAfter + 1);
    assert n == (SpawnAfter + 1) * q + t;
    if t + 1 > SpawnAfter {
      ModOf(n + 1, q + 1, 0);
    } else {
      ModOf(n + 1, q, t + 1);
    }
  }

  /** The remainder modulo 91 is determined by any division with a remainder in range. */
  lemma ModOf(n: int, q: int, r: int)
    requires n == (SpawnAfter + 1) * q + r && 0 <= r <= SpawnAfter
    ensures n % (SpawnAfter + 1) == r
  {
  }

  /** The character moves exactly as the frames' commands alone would move it. */
  lemma {:induction false} AdvanceDino(s: GameState, inputs: seq<Input>)
    ensures Advance(s, inputs).dino == Simulate(s.dino, Commands(inputs))
    decreases |inputs|
  {
    if |inputs| > 0 {
      var front := inputs[..|inputs| - 1];
      AdvanceDino(s, front);
      assert Advance(s, inputs) == Step(Advance(s, front), inputs[|inputs| - 1]);
      assert Commands(inputs)[..|inputs| - 1] == Commands(front);
    }
  }

  /** From the initial state, frame n (counting from 1) spawns an obstacle exactly when n is a multiple of 91. */
  lemma SpawnEvery91st(inputs: seq<Input>, n: nat)
    requires 1 <= n <= |inputs|
    ensures Spawns(Advance(Init(), inputs[..n - 1])) <==> n % 91 == 0
  {
    var before := Advance(Init(), inputs[..n - 1]);
    AdvanceTimer(Init(), inputs[..n - 1]);
    assert before.spawnTimer == (n - 1) % (SpawnAfter + 1);
    EveryNthFrame(n);
  }

  /** The frame after a timer value of 90 is a multiple of 91. */
  lemma EveryNthFrame(n: int)
    requires n >= 1
    ensures (n - 1) % (SpawnAfter + 1) + 1 > SpawnAfter <==> n % (SpawnAfter + 1) == 0
  {
  }

  /** In any game, the character stays between height 59 and the ground. */
  lemma DinoStaysInBounds(inputs: seq<Input>)
    ensures 59 <= Advance(Init(), inputs).dino.y <= GroundY
  {
    AdvanceDino(Init(), inputs);
    SimulateReachable(Commands(inputs));
  }

  /**
   Position, when the spawn timer reads t, of the obstacle spawned j spawns
   before the latest one: each was moved once on its spawning frame and once
   per frame since.
   */
  function WaveX(t: int, j: int): int
  {
    PlayfieldWidth - Speed * (t + 1 + (SpawnAfter + 1) * j)
  }

  /**
   At most two obstacles, all on screen, the newest last, each where WaveX
   puts it for spawn timer t.
   */
  predicate Wave(obs: seq<Obstacle>, t: int)
  {
    && |obs| <= 2
    && forall i :: 0 <= i < |obs| ==> obs[i] == At(WaveX(t, |obs| - 1 - i)) && !Offscreen(obs[i])
  }

  /** The states a game passes through: timer in range, character reachable, obstacles in a wave. */
  predicate Consistent(s: GameState)
  {
    && 0 <= s.spawnTimer <= SpawnAfter
    && Reachable(s.dino)
    && Wave(s.obstacles, s.spawnTimer)
  }

  /** Pruning one or two obstacles, written out. */
  lemma PruneShort(obs: seq<Obstacle>)
    requires 1 <= |obs| <= 2
    ensures |obs| == 1 ==> Prune(obs) == (if Offscreen(obs[0]) then [] else obs)
    ensures |obs| == 2 && !Offscreen(obs[1]) ==>
      Prune(obs) == (if Offscreen(obs[0]) then [obs[1]] else obs)
  {
    if |obs| == 2 {
      assert obs[1..][1..] == [];
    } else {
      assert obs[1..] == [];
    }
  }

  /** Moving a wave obstacle is a frame's worth of WaveX. */
  lemma MoveWaveObstacle(t: int, j: int)
    ensures Move(At(WaveX(t, j))) == At(WaveX(t + 1, j))
    ensures Move(At(WaveX(SpawnAfter, j))) == At(WaveX(0, j + 1))
  {
  }

  /** Moving one or two obstacles, written out. */
  lemma MoveAllShort(obs: seq<Obstacle>)
    requires 1 <= |obs| <= 2
    ensures |obs| == 1 ==> MoveAll(obs) == [Move(obs[0])]
    ensures |obs| == 2 ==> MoveAll(obs) == [Move(obs[0]), Move(obs[1])]
  {
  }

  /** A frame that does not spawn moves the wave one frame on. */
  lemma WaveMoves(obs: seq<Obstacle>, t: int)
    requires 0 <= t < SpawnAfter && Wave(obs, t)
    ensures Wave(Prune(MoveAll(obs)), t + 1)
  {
    if |obs| == 1 {
      MoveAllShort(obs);
      MoveWaveObstacle(t, 0);
      PruneShort(MoveAll(obs));
    } else if |obs| == 2 {
      MoveAllShort(obs);
      MoveWaveObstacle(t, 0);
      MoveWaveObstacle(t, 1);
      var older := At(WaveX(t + 1, 1));
      var newer := At(WaveX(t + 1, 0));
      assert MoveAll(obs) == [older, newer];
      PruneShort([older, newer]);
      assert !Offscreen(newer);
    }
  }

  /** A spawning frame moves the wave on, drops what leaves the screen and adds the new obstacle last. */
  lemma WaveSpawns(obs: seq<Obstacle>)
    requires Wave(obs, SpawnAfter)
    ensures Wave(Prune(MoveAll(obs)) + [At(PlayfieldWidth - Speed)], 0)
  {
    var newest := At(PlayfieldWidth - Speed);
    assert newest == At(WaveX(0, 0));
    if |obs| == 0 {
      assert Prune(MoveAll(obs)) + [newest] == [newest];
    } else if |obs| == 1 {
      MoveAllShort(obs);
      MoveWaveObstacle(SpawnAfter, 0);
      var older := At(WaveX(0, 1));
      PruneShort([older]);
      assert Prune(MoveAll(obs)) + [newest] == [older, newest];
    } else {
      // With the timer at 90, an obstacle two spawns old would already be off screen.
      assert false;
    }
  }

  /** Every frame keeps a game consistent. */
  lemma StepConsistent(s: GameState, input: Input)
    requires Consistent(s)
    ensures Consistent(Step(s, input))
  {
    StepObstacles(s, input);
    ReachablePreserved(s.dino, input.command);
    if Spawns(s) {
      WaveSpawns(s.obstacles);
    } else {
      WaveMoves(s.obstacles, s.spawnTimer);
    }
  }

  /** Every game from the initial state is consistent; in particular it never holds more than two obstacles. */
  lemma {:induction false} AdvanceConsistent(inputs: seq<Input>)
    ensures Consistent(Advance(Init(), inputs))
    ensures |Advance(Init(), inputs).obstacles| <= 2
    decreases |inputs|
  {
    if |inputs| > 0 {
      var front := inputs[..|inputs| - 1];
      AdvanceConsistent(front);
      StepConsistent(Advance(Init(), front), inputs[|inputs| - 1]);
    }
  }

  /**
   The loop: plays frames while the game is running and inputs remain.
   Returns the final state and the number of frames played.
   */
  method Play(s0: GameState, inputs: seq<Input>) returns (s: GameState, frames: nat)
    ensures frames <= |inputs|
    ensures s == Advance(s0, inputs[..frames])
    ensures frames == |inputs| || !s.running
    ensures forall j :: 0 <= j < frames ==> Advance(s0, inputs[..j]).running
    ensures s.score == s0.score + frames
  {
    s := s0;
    frames := 0;
    while frames < |inputs| && s.running
      invariant frames <= |inputs|
      invariant s == Advance(s0, inputs[..frames])
      invariant s.score == s0.score + frames
      invariant forall j :: 0 <= j < frames ==> Advance(s0, inputs[..j]).running
    {
      AdvanceOneMore(s0, inputs, frames);
      s := Step(s, inputs[frames]);
      frames := frames + 1;
    }
  }
}

=== FILE: geometry.dfy ===
/**
 Axis-aligned rectangles in screen coordinates (x grows to the right, y grows
 downwards) and the collision test the game asks of them.

 The game relies on the graphics library's rectangle overlap test, whose code
 is not part of this model. It is specified here as the strict overlap of two
 rectangles of positive size: rectangles that only share an edge do not
 collide.
 */
module Geometry {

  /** A rectangle given by its top-left corner and its width and height. */
  datatype Rect = Rect(x: int, y: int, w: int, h: int)
  {
    /** One past the right-most column covered. */
    function Right(): int { x + w }

    /** One past the lowest row covered: the bottom edge. */
    function Bottom(): int { y + h }
  }

  /** The half-open intervals [lo1, hi1) and [lo2, hi2) share a point. */
  predicate SpansOverlap(lo1: int, hi1: int, lo2: int, hi2: int)
  {
    lo1 < hi2 && lo2 < hi1
  }

  /** The assumed collision test: both axes overlap strictly. */
  predicate Collide(a: Rect, b: Rect)
  {
    && a.w > 0 && a.h > 0 && b.w > 0 && b.h > 0
    && SpansOverlap(a.x, a.Right(), b.x, b.Right())
    && SpansOverlap(a.y, a.Bottom(), b.y, b.Bottom())
  }

  /** Collision does not depend on which rectangle asks. */
  lemma CollideSymmetric(a: Rect, b: Rect)
    ensures Collide(a, b) <==> Collide(b, a)
  {
  }

  /** Rectangles that only touch along a vertical or horizontal edge do not collide. */
  lemma TouchingDoesNotCollide(a: Rect, b: Rect)
    requires a.Right() == b.x || a.Bottom() == b.y
    ensures !Collide(a, b)
  {
  }

  /** Two positive-size rectangles with a common cell collide. */
  lemma CommonCellCollides(a: Rect, b: Rect, px: int, py: int)
    requires a.x <= px < a.Right() && a.y <= py < a.Bottom()
    requires b.x <= px < b.Right() && b.y <= py < b.Bottom()
    ensures Collide(a, b)
  {
  }
}

=== FILE: gesture.dfy ===
/**
 The gesture rule: how one camera read becomes one of three commands.

 Capturing the frame, mirroring it and running the hand-landmark detector are
 outside the model; what remains is the detector's outcome (no frame, no hand,
 or the vertical coordinates of the first hand's landmarks) and the rule that
 counts raised fingers on it.
 */
module Gesture {

  /** The three commands the character understands. */
  datatype Command = Run | Jump | Duck

  /** Number of landmarks the hand detector reports per hand. */
  const LandmarkCount: nat := 21

  /** Landmark indices of the index, middle, ring and pinky fingertips. */
  const Tips: seq<nat> := [8, 12, 16, 20]

  /** What one camera read and hand detection yield. */
  datatype Detection =
    | NoFrame                      // the camera returned no frame
    | NoHand                       // a frame, but no hand was detected
    | Hand(landmarkY: seq<real>)   // vertical coordinates of the first hand's landmarks

  /** The detector's hands always carry the full set of landmarks. */
  predicate FullHand(d: Detection)
  {
    d.Hand? ==> |d.landmarkY| == LandmarkCount
  }

  /** A finger is raised when its tip lies above (smaller y than) the joint two landmarks further down. */
  predicate Raised(ys: seq<real>, finger: nat)
    requires finger < |Tips| && |ys| == LandmarkCount
  {
    ys[Tips[finger]] < ys[Tips[finger] - 2]
  }

  /** The raised fingers among the first k of the four, by position in Tips. */
  ghost function RaisedAmong(ys: seq<real>, k: nat): set<nat>
    requires k <= |Tips| && |ys| == LandmarkCount
  {
    set i: nat | i < k && Raised(ys, i)
  }

  /** Counts the raised fingers among the first k, one finger at a time as the detector loop does. */
  function CountRaised(ys: seq<real>, k: nat): (n: nat)
    requires k <= |Tips| && |ys| == LandmarkCount
    ensures n == |RaisedAmong(ys, k)|
    ensures n <= k
  {
    if k == 0 then
      assert RaisedAmong(ys, 0) == {};
      0
    else
      var before := CountRaised(ys, k - 1);
      if Raised(ys, k - 1) then
        assert RaisedAmong(ys, k) == RaisedAmong(ys, k - 1) + {k - 1};
        before + 1
      else
        assert RaisedAmong(ys, k) == RaisedAmong(ys, k - 1);
        before
  }

  /** Maps a raised-finger count to a command: an open hand jumps, a fist ducks, anything between runs. */
  function Classify(n: nat): (c: Command)
    ensures c == Jump <==> n >= 4
    ensures c == Duck <==> n <= 1
    ensures c == Run <==> 2 <= n <= 3
  {
    if n >= 4 then Jump
    else if n <= 1 then Duck
    else Run
  }

  /** The command for one camera read; a failed read or a missing hand falls back to running. */
  function GetCommand(d: Detection): (c: Command)
    requires FullHand(d)
    ensures !d.Hand? ==> c == Run
    ensures d.Hand? ==> c == Classify(|RaisedAmong(d.landmarkY, |Tips|)|)
  {
    match d
    case NoFrame => Run
    case NoHand => Run
    case Hand(ys) => Classify(CountRaised(ys, |Tips|))
  }

  /** The command is jump exactly when all four fingers are raised. */
  lemma {:induction false} JumpIffAllRaised(ys: seq<real>)
    requires |ys| == LandmarkCount
    ensures GetCommand(Hand(ys)) == Jump <==> forall i: nat :: i < |Tips| ==> Raised(ys, i)
  {
    var up := RaisedAmong(ys, |Tips|);
    var all: set<nat> := {0, 1, 2, 3};
    assert up <= all;
    if forall i: nat :: i < |Tips| ==> Raised(ys, i) {
      assert up == all;
    } else {
      var j: nat :| j < |Tips| && !Raised(ys, j);
      assert up <= all - {j};
      assert |all - {j}| == 3;
      SubsetCard(up, all - {j});
    }
  }

  /** A subset is no larger than its superset. */
  lemma {:induction false} SubsetCard(a: set<nat>, b: set<nat>)
    requires a <= b
    ensures |a| <= |b|
    decreases |b|
  {
    if a != {} {
      var x :| x in a;
      SubsetCard(a - {x}, b - {x});
    }
  }

  /** The command is duck exactly when at most one finger is raised, and run exactly when two or three are. */
  lemma DuckIffAtMostOneRaised(ys: seq<real>)
    requires |ys| == LandmarkCount
    ensures GetCommand(Hand(ys)) == Duck <==> |RaisedAmong(ys, |Tips|)| <= 1
    ensures GetCommand(Hand(ys)) == Run <==> 2 <= |RaisedAmong(ys, |Tips|)| <= 3
  {
  }
}

=== FILE: obstacles.dfy ===
/**
 Obstacles: ground-standing blocks that enter at the right edge of the
 playfield and move left at a constant speed until they are far enough off
 screen to be dropped.
 */
module Obstacles {
  import opened Geometry
  import Physics

  /** Width of the playfield; obstacles enter at this x. */
  const PlayfieldWidth: int := 900
  /** Pixels an obstacle moves left per update. */
  const Speed: int := 8
  /** Size of an obstacle; it stands on the ground. */
  const ObstacleW: int := 30
  const ObstacleH: int := 40
  const ObstacleTop: int := Physics.GroundY - ObstacleH
  /** Obstacles whose x is below this are off screen. */
  const OffscreenX: int := -50

  /** An obstacle: its position, its speed and its bounding rectangle. */
  datatype Obstacle = Obstacle(x: int, speed: int, rect: Rect)

  /** The obstacle at horizontal position x, as the game keeps every obstacle. */
  function At(x: int): Obstacle
  {
    Obstacle(x, Speed, Rect(x, ObstacleTop, ObstacleW, ObstacleH))
  }

  /** A well-formed obstacle: standard speed and size, standing on the ground, its rectangle at its x. */
  predicate WellFormed(o: Obstacle)
  {
    o == At(o.x)
  }

  /** A new obstacle at the right edge of the playfield. */
  function Spawn(): (o: Obstacle)
    ensures WellFormed(o)
    ensures o.x == PlayfieldWidth && o.rect == Rect(900, 190, 30, 40)
  {
    At(PlayfieldWidth)
  }

  /** One update: the obstacle moves left by its speed and its rectangle follows. */
  function Move(o: Obstacle): (r: Obstacle)
    ensures r.x == o.x - o.speed && r.speed == o.speed
    ensures r.rect == o.rect.(x := r.x)
    ensures WellFormed(o) ==> WellFormed(r) && r.x == o.x - Speed
  {
    var x := o.x - o.speed;
    Obstacle(x, o.speed, o.rect.(x := x))
  }

  /**
   The obstacle has left the playfield far enough to be dropped: a well-formed
   obstacle that is off screen lies wholly left of the window.
   */
  predicate Offscreen(o: Obstacle)
    ensures Offscreen(o) && WellFormed(o) ==> o.rect.Right() < 0
  {
    o.x < OffscreenX
  }

  /** The obstacle after n updates. */
  function MoveTimes(o: Obstacle, n: nat): Obstacle
  {
    if n == 0 then o else Move(MoveTimes(o, n - 1))
  }

  /** n updates move a well-formed obstacle exactly 8n to the left and keep it well formed. */
  lemma {:induction false} MoveTimesPosition(o: Obstacle, n: nat)
    requires WellFormed(o)
    ensures MoveTimes(o, n) == At(o.x - Speed * n)
  {
    if n > 0 {
      MoveTimesPosition(o, n - 1);
    }
  }

  /** A spawned obstacle goes off screen after exactly 119 updates, and not before. */
  lemma OffscreenAfter(n: nat)
    ensures MoveTimes(Spawn(), n).x == 900 - 8 * n
    ensures Offscreen(MoveTimes(Spawn(), n)) <==> n >= 119
  {
    MoveTimesPosition(Spawn(), n);
  }

  /**
   The collision rule for a well-formed obstacle and a character on or above
   the ground: they collide exactly when the obstacle's columns meet the
   character's and the character's feet are below the obstacle's top.
   */
  lemma CollideWithDino(o: Obstacle, d: Physics.Dino)
    requires WellFormed(o) && d.y <= Physics.GroundY
    ensures Collide(o.rect, Physics.Hitbox(d))
        <==> SpansOverlap(o.x, o.x + ObstacleW, Physics.DinoX, Physics.DinoX + Physics.DinoW) && d.y > ObstacleTop
  {
  }

  /** High enough, at feet height 190 or above, no obstacle can touch the character. */
  lemma HighEnoughClears(o: Obstacle, d: Physics.Dino)
    requires WellFormed(o) && d.y <= ObstacleTop
    ensures !Collide(o.rect, Physics.Hitbox(d))
  {
  }

  /** Ducking on the ground does not avoid an obstacle whose columns meet the character's. */
  lemma DuckingOnGroundStillCollides(o: Obstacle, d: Physics.Dino)
    requires WellFormed(o) && d.y == Physics.GroundY && d.ducking
    requires SpansOverlap(o.x, o.x + ObstacleW, Physics.DinoX, Physics.DinoX + Physics.DinoW)
    ensures Collide(o.rect, Physics.Hitbox(d))
  {
  }
}

=== FILE: physics.dfy ===
/**
 The character's vertical motion: one integer physics tick per frame, driven
 by the command of that frame, and the hitbox it exposes for collisions.
 */
module Physics {
  import opened Gesture
  import opened Geometry

  /** The floor: the largest y the character's feet may have. */
  const GroundY: int := 230
  /** Velocity given by a jump (negative is upwards). */
  const JumpVel: int := -18
  /** Added to the velocity every frame. */
  const Gravity: int := 1

  /** Fixed horizontal placement and size of the hitbox. */
  const DinoX: int := 80
  const DinoW: int := 40
  const StandH: int := 50
  const DuckH: int := 30

  /** The character: feet position, vertical velocity and pose. */
  datatype Dino = Dino(y: int, vel: int, ducking: bool)

  /** The character as the game creates it: standing on the ground, at rest. */
  function Start(): (d: Dino)
    ensures d.y == GroundY && d.vel == 0 && !d.ducking
    ensures Update(d, Run) == Dino(GroundY, 1, false)
    ensures Update(d, Jump) == Dino(GroundY + JumpVel, JumpVel + Gravity, false)
    ensures Reachable(d)
  {
    Dino(GroundY, 0, false)
  }

  /** The velocity the tick moves by: a jump only takes off from exactly ground level. */
  function TakeOff(d: Dino, c: Command): int
  {
    if c == Jump && d.y == GroundY then JumpVel else d.vel
  }

  /** One physics tick under command c. */
  function Update(d: Dino, c: Command): (r: Dino)
    ensures r.y <= GroundY
    ensures r.ducking <==> c == Duck
    ensures d.y + TakeOff(d, c) > GroundY ==> r.y == GroundY && r.vel == 0
  {
    var vel := TakeOff(d, c);
    var y := d.y + vel;
    if y > GroundY then Dino(GroundY, 0, c == Duck)
    else Dino(y, vel + Gravity, c == Duck)
  }

  /** The hitbox: fixed column and width, shorter when ducking, bottom edge at the feet. */
  function Hitbox(d: Dino): (r: Rect)
    ensures r.x == DinoX && r.w == DinoW
    ensures r.h == (if d.ducking then DuckH else StandH)
    ensures r.Bottom() == d.y
  {
    var h := if d.ducking then DuckH else StandH;
    Rect(DinoX, d.y - h, DinoW, h)
  }

  /** A jump while airborne is ignored: it moves the character exactly as running does. */
  lemma NoDoubleJump(d: Dino)
    requires d.y != GroundY
    ensures Update(d, Jump) == Update(d, Run)
  {
  }

  /** Ducking changes only the pose, never the motion. */
  lemma DuckOnlyChangesPose(d: Dino, c: Command)
    ensures Update(d, Duck).y == Update(d, Run).y && Update(d, Duck).vel == Update(d, Run).vel
    ensures c != Jump ==> Update(d, c).(ducking := false) == Update(d, Run)
    ensures Hitbox(Update(d, Duck)).h == DuckH && Hitbox(Update(d, c)).h == (if c == Duck then DuckH else StandH)
  {
  }

  /** Standing on the ground and running, the velocity alternates between 0 and 1. */
  lemma GroundRunAlternates(ducking: bool)
    ensures Update(Dino(GroundY, 0, ducking), Run) == Dino(GroundY, 1, false)
    ensures Update(Dino(GroundY, 1, ducking), Run) == Dino(GroundY, 0, false)
  {
  }

  /** The character after the commands cs, applied in order. */
  function Simulate(d: Dino, cs: seq<Command>): Dino
    decreases |cs|
  {
    if |cs| == 0 then d
    else Update(Simulate(d, cs[..|cs| - 1]), cs[|cs| - 1])
  }

  /** Height k frames into a jump from the ground. */
  function ArcY(k: int): int
  {
    GroundY + JumpVel * k + Gravity * (k * (k - 1) / 2)
  }

  /** Consecutive arc heights differ by the velocity of the earlier frame. */
  lemma ArcStep(k: int)
    ensures ArcY(k + 1) == ArcY(k) + JumpVel + Gravity * k
  {
    assert (k + 1) * k == k * (k - 1) + 2 * k;
  }

  /** The arc stays between its apex 59, reached at frames 18 and 19, and the ground, reached again at frame 37. */
  lemma ArcBounds(k: int)
    requires 1 <= k <= 37
    ensures 59 <= ArcY(k) <= GroundY
    ensures ArcY(k) == 59 <==> k == 18 || k == 19
    ensures ArcY(k) == GroundY <==> k == 37
  {
  }

  /**
   A jump from ground level follows the arc exactly: k frames in, for k up to 37,
   whatever commands follow the jump.
   */
  lemma {:induction false} JumpArc(d: Dino, cs: seq<Command>, k: nat)
    requires d.y == GroundY && |cs| >= 1 && cs[0] == Jump
    requires 1 <= k <= 37 && k <= |cs|
    ensures Simulate(d, cs[..k]).y == ArcY(k)
    ensures Simulate(d, cs[..k]).vel == JumpVel + Gravity * k
  {
    if k == 1 {
      assert cs[..1][..0] == [];
      assert ArcY(1) == GroundY + JumpVel;
    } else {
      JumpArc(d, cs, k - 1);
      assert cs[..k][..k - 1] == cs[..k - 1];
      ArcBounds(k - 1);
      ArcBounds(k);
      ArcStep(k - 1);
    }
  }

  /** After the 37 frames of the arc, a non-jump command on frame 38 lands the character at rest. */
  lemma {:induction false} JumpLands(d: Dino, cs: seq<Command>)
    requires d.y == GroundY && |cs| == 38 && cs[0] == Jump && cs[37] != Jump
    ensures Simulate(d, cs[..37]).y == GroundY && Simulate(d, cs[..37]).vel == 19
    ensures Simulate(d, cs) == Dino(GroundY, 0, cs[37] == Duck)
  {
    JumpArc(d, cs, 37);
    assert cs[..38] == cs;
    assert cs[..37] == cs[..|cs| - 1];
  }

  /**
   Every state reachable from Start: on the ground with velocity 0 or 1, or k
   frames into a jump arc, 1 <= k <= 37, with velocity JumpVel + k.
   */
  predicate Reachable(d: Dino)
  {
    || (d.y == GroundY && 0 <= d.vel <= 1)
    || (1 <= d.vel - JumpVel <= 37 && d.y == ArcY(d.vel - JumpVel))
  }

  /** Reachable states stay between the apex and the ground. */
  lemma ReachableBounds(d: Dino)
    requires Reachable(d)
    ensures 59 <= d.y <= GroundY
  {
    if d.y != GroundY {
      ArcBounds(d.vel - JumpVel);
    }
  }

  /** No command leads out of the reachable states. */
  lemma ReachablePreserved(d: Dino, c: Command)
    requires Reachable(d)
    ensures Reachable(Update(d, c))
  {
    var k := d.vel - JumpVel;
    if 1 <= k <= 37 && d.y == ArcY(k) {
      ArcBounds(k);
      if k < 37 {
        ArcStep(k);
        ArcBounds(k + 1);
      }
    }
  }

  /** Any command sequence from Start keeps the character between height 59 and the ground. */
  lemma {:induction false} SimulateReachable(cs: seq<Command>)
    ensures Reachable(Simulate(Start(), cs))
    ensures 59 <= Simulate(Start(), cs).y <= GroundY
    decreases |cs|
  {
    if |cs| > 0 {
      SimulateReachable(cs[..|cs| - 1]);
      ReachablePreserved(Simulate(Start(), cs[..|cs| - 1]), cs[|cs| - 1]);
    }
    ReachableBounds(Simulate(Start(), cs));
  }
}
